=== FILE: README.md ===
# docx tools: path guard, read filter and writer, in Dafny

This project models the core of `docx_tools.py`. That file holds the two tools
of a document server:

- `read_docx` turns a Word document into a list of paragraph dictionaries.
  It keeps only the formatting that is explicitly set and not the default.
- `write_docx` builds a new document from such a list and saves it.

Both tools first pass their path through an allow-list guard. The allow-list
comes from the `ALLOWED_DIR` environment variable.

The document library is replaced by abstract records in module `Model`:

- a `Paragraph` has a style name, an optional alignment, four optional lengths
  and its runs;
- a `Run` has a text and a `Font`, in which each of the fourteen attributes is
  unset or set.

The dictionaries are records too (`ParagraphData`, `RunData`). Each of their
keys is an `Option` field, so an absent key and a key that holds a default
value stay distinct.

The modules:

- `Paths`: the classification of the environment value, and the guard.
- `Formats`: the alignment and highlight name tables and the six-digit colour
  text.
- `Model`: the entities, plus two classes. `Disk` is the files the tool sees.
  `Document` is the in-memory document whose setters the writer calls.
- `Reader`: the filter as functions, and `ReadDocx`, the nested loops that
  apply it.
- `Writer`: what a write builds, as functions, and `WriteDocx`, the loops
  that mutate a `Document` and then save it.
- `RoundTrip`: for a document whose paragraph styles the new document's template defines, read, then write, then read again gives what the first read gave. A paragraph style the template lacks makes the write fail with `StyleNotFound`.

A path is the sequence of components of its canonical absolute form.
"Strict ancestor" (`parents`) means strict prefix. Raising
`NotAuthorizedError` is `PathIsAllowed` returning `false`, or an
`Error.NotAuthorized` result.

## Model

| member | source | states |
|---|---|---|
| Paths.GetAllowedDir | docx_tools.py:15-22 | An absent or empty value means no restriction. A value containing `[` anywhere is parsed as a list; it fails exactly when the parse fails, and otherwise yields one resolved directory per item, in order. Any other value is one resolved directory. |
| Paths.PathIsAllowed | docx_tools.py:28-34 | With no list, every path is accepted. With a list, a path is accepted iff some listed directory equals it or is a strict ancestor of it. |
| Paths.NoConfigurationAllowsEverything | docx_tools.py:16-30 | With the variable absent or empty, configuration succeeds and every path is accepted. |
| Paths.EmptyListRejectsEverything | docx_tools.py:31-34 | A configured but empty list rejects every path. |
| Paths.AllowListMonotone | docx_tools.py:31-34 | Adding directories to the list never rejects a path that was accepted. |
| Paths.DescendantsOfAllowedAreAllowed | docx_tools.py:31-34 | Every path below an accepted path is accepted. |
| Paths.AuthorizationExamples | docx_tools.py:31-34 | Paths are compared component by component: `/data/sub/x` and `/data` are under `/data`, but `/data2/x`, `/other/x` and `/data` (against `/data/sub`) are not. |
| Formats.AlignmentFromName | docx_tools.py:77 | The lookup succeeds with `a` exactly when the name is `a`'s name. The four names are LEFT, CENTER, RIGHT and JUSTIFY; any other name is a lookup failure. |
| Formats.HighlightFromName | docx_tools.py:49-69 | The lookup succeeds with `h` exactly when the name is `h`'s name, over the nineteen listed names; any other name is a lookup failure. |
| Formats.FromHex | docx_tools.py:234 | The parse succeeds exactly on six hexadecimal digits, in either case. The colour is then the three bytes 16·d(2k) + d(2k+1) of the digit values d, so "ff0000" and "FF0000" both give (255, 0, 0). |
| Formats.DigitValueIgnoresCase | docx_tools.py:234 | A lower-case hex digit has the same value as its upper-case form. |
| Formats.ToHex | docx_tools.py:148 | The printed colour is six upper-case hexadecimal digits. |
| Formats.FromHexToHex | docx_tools.py:234 | Parsing a printed colour gives the colour back. |
| Formats.ToHexFromHex | docx_tools.py:234 | Any six upper-case hex digits parse, and printing the parsed colour gives the same text. |
| Reader.RunView | docx_tools.py:126-158 | The dictionary of a run always has `text`, holding the run's text. No key holds false, empty or zero. The colour is printed colour text, and the highlight is one of the nineteen names. |
| Reader.ParagraphAttributes | docx_tools.py:107-121 | The paragraph keys never carry the "Normal" style, an unknown alignment name, or a zero indent or spacing. |
| Reader.ParagraphView | docx_tools.py:124-160 | A paragraph's dictionary has a `runs` list with one entry per run, in order, each the run's dictionary. |
| Reader.DocView | docx_tools.py:103-163 | The value read for a body has one entry per paragraph, in order, each the paragraph's dictionary. |
| Reader.ReadDocx | docx_tools.py:101-163 | The result is NotAuthorized if the guard rejects the path, else FileNotFound or NotADocument if opening fails. Otherwise it is one dictionary per paragraph, in document order, each the paragraph's dictionary. |
| Reader.RunKeysMirrorFont | docx_tools.py:129-156 | Each boolean run key is present iff its font attribute is `True`. `underline` is present iff the underline is truthy, and then holds that value. `font_name` and `font_size` are present iff the name is non-empty and the size is non-zero. `font_color` and `highlight` are present iff set. |
| Reader.ParagraphKeysMirrorFormat | docx_tools.py:108-121 | `style` is present iff the style is not "Normal". `alignment` is present iff alignment is set. Each indent and `line_spacing` key is present iff its value is set and non-zero. |
| Reader.DefaultsAreSuppressed | docx_tools.py:107-156 | A "Normal" paragraph with nothing set yields only `runs`. A run with an unset font, or with flags explicitly false, yields only `text`. |
| Model.Disk.Save | docx_tools.py:244 | Saving creates or replaces exactly one file, `path`, holding the given body. |
| Model.Document.constructor | docx_tools.py:186 | A new document has the template's styles and no paragraphs. |
| Model.Document.AddParagraph | docx_tools.py:189 | Appends one blank "Normal" paragraph. |
| Model.Document.SetStyle | docx_tools.py:192-193 | Succeeds iff the template defines the name. Only then is the last paragraph's style set; otherwise nothing changes. |
| Model.Document.SetAlignment | docx_tools.py:196-197 | Sets the alignment of the last paragraph only. |
| Model.Document.SetFormat | docx_tools.py:200-208 | Sets the format of the last paragraph only. |
| Model.Document.AddRun | docx_tools.py:212 | Appends a run with the given text and an unset font to the last paragraph. |
| Model.Document.SetFont | docx_tools.py:214-242 | Replaces the font of the last run of the last paragraph only, through `WithLastFont`. The rest of the body is unchanged. |
| Model.WithLastFont | docx_tools.py:214-242 | Keeps the paragraph's style, alignment, format and every earlier run. The last run keeps its text and gets the new font. |
| Writer.FontOf | docx_tools.py:214-242 | A truthy colour that is not six hex digits fails with BadColor, which takes precedence. Otherwise a truthy highlight name outside the nineteen fails with UnknownHighlight. The font fails exactly in these two cases. Otherwise every attribute's value is stated. Each boolean attribute is `True` iff its key is `True`, and unset otherwise. `underline` is the key's value. Name, size, colour and highlight are the given, parsed or looked-up value iff the key is truthy (size: present and non-zero), and unset otherwise. |
| Writer.RunOf | docx_tools.py:212-242 | A missing `text` fails with MissingKey("text"). The run is written iff `text` is present and the font succeeds; a font failure is the run's error. On success the run carries the key's text and that font. |
| Writer.ParagraphOf | docx_tools.py:189-212 | Errors come in order: an unknown style fails first with StyleNotFound, then an unknown alignment name; the paragraph's error is then exactly that head error. Next a missing `runs` key fails with MissingKey("runs"). Otherwise a failure is the error of the first failing run, every earlier run having succeeded. The paragraph is written iff none of these occurs. It then has the given style, or "Normal". Its alignment is the one named, if any. Its four indent and spacing values are exactly the keys given. It has one run per run entry, each that entry's run. |
| Writer.DocumentOf | docx_tools.py:186-243 | The build succeeds iff every entry's paragraph succeeds, giving one paragraph per entry in order. Otherwise its error is that of the first failing entry. |
| Writer.WriteSpec | docx_tools.py:179-244 | An unauthorized path fails with NotAuthorized. Otherwise an existing path without overwrite fails with AlreadyExists. Once both guards pass, the outcome is exactly the document build, including its error. A success implies both guards passed. |
| Writer.ApplyEffects | docx_tools.py:214-228 | The bold through subscript assignments: each truthy flag raises its attribute, and a present `underline` is assigned as given. |
| Writer.ApplyFace | docx_tools.py:229-236 | A truthy colour that does not parse fails. Otherwise a truthy highlight outside the enumeration fails. Otherwise the name, size, colour and highlight given truthily are assigned. |
| Writer.ApplyCaps | docx_tools.py:237-242 | The all-caps, small-caps and hidden flags raise their attributes. |
| Writer.ApplyRunFormatting | docx_tools.py:214-242 | The font of a new run after all assignments, in source order, equals the reference `FontOf`. |
| Writer.AddParagraphFor | docx_tools.py:189-208 | Appends a paragraph. An unknown style, then an unknown alignment name, is reported. Otherwise the new paragraph carries exactly the given style, alignment and format keys. |
| Writer.AddRunFor | docx_tools.py:212-242 | Fails with MissingKey("text") or the font's failure. Otherwise it appends the reference run to the last paragraph. |
| Writer.AddRunsFor | docx_tools.py:211-242 | Appends the runs of one entry in order. The first failing run is the error. |
| Writer.AddEntry | docx_tools.py:188-242 | One pass of the loop over `data` appends exactly the reference paragraph, or reports the same error as the reference. |
| Writer.WriteDocx | docx_tools.py:179-245 | Authorization comes first, then the overwrite check, then building. On any failure the files are unchanged. On success it returns "Saved file" and exactly `outPath` now holds the built document. |
| Writer.ParagraphShape | docx_tools.py:211-212 | A written paragraph has one run per run entry, in order, each carrying that entry's text. |
| Writer.WrittenShape | docx_tools.py:188-212 | A successful build has one paragraph per entry and one run per run entry, in order, each with its entry's text. |
| Writer.BadEntryFailsWrite | docx_tools.py:188-242 | One entry that cannot be applied makes the whole build fail. |
| Writer.UnknownAlignmentFails | docx_tools.py:196-197 | An alignment name outside the four fails its paragraph with UnknownAlignment when the style is known. |
| Writer.UnknownHighlightFails | docx_tools.py:235-236 | A highlight name outside the nineteen fails its run with UnknownHighlight, unless its colour already failed. |
| Writer.UnknownHighlightFailsWrite | docx_tools.py:188-236 | A run with an unknown highlight name, reached after every earlier entry and every earlier run of its entry succeeded, and whose colour is fine, makes the whole build fail with UnknownHighlight for that name. |
| Writer.GuardsComeFirst | docx_tools.py:179-186 | When the guard or the overwrite check rejects a call, the outcome is NotAuthorized or AlreadyExists, and it does not depend on the data. |
| RoundTrip.FaceRoundTrip | docx_tools.py:229-236 | On a dictionary in the reader's shape, the face assignments succeed and carry the name, size, colour and highlight back. |
| RoundTrip.FontRoundTrip | docx_tools.py:214-242 | The font written for a dictionary in the reader's shape reads back to each of its keys. |
| RoundTrip.RunRoundTrip | docx_tools.py:127-156 | Any run dictionary the reader can emit is written without error, and reading the written run gives the same dictionary. |
| RoundTrip.ParagraphRoundTrip | docx_tools.py:107-161 | Any paragraph dictionary the reader can emit, whose style the template defines, is written and read back unchanged. |
| RoundTrip.DocumentRoundTrip | docx_tools.py:188-242 | Any list of reader-shaped paragraphs with known styles is written without error and read back unchanged. |
| RoundTrip.ReadWriteRead | docx_tools.py:166-178 | For a document whose styles the new template defines, writing what was read succeeds, and reading the result gives the first read again. |
| RoundTrip.WrittenFileReadsBack | docx_tools.py:166-244 | Write what was read to an authorized path, where the path is new (the default `overwrite=False`) or overwrite is set, and with styles known. The write succeeds, and the saved body reads as the original. |
| RoundTrip.UnknownStyleBreaksRoundTrip | docx_tools.py:108-109 | The style condition is needed: a paragraph whose style is neither "Normal" nor in the template makes writing what was read fail. |
| Results.MapAll | docx_tools.py:188-212 | Applying a step to each element stops at the first failure. It succeeds iff every step succeeds, with one value per element, in order; otherwise its error is the first failing element's. |

## Left out

- Opening and saving the document package is not modelled. `Document(path)` and `doc.save` handle zip and XML. A file is either a `DocumentFile` with its paragraphs or `OtherFile`, and saving replaces one map entry.
- Canonicalisation is a parameter. `Path(...).resolve()`, symlinks included, is the `resolve` argument of `GetAllowedDir`, and the guard takes canonical paths.
- `Path(...).exists()` is modelled as membership in the `Disk` map.
- Reading the environment and parsing JSON are parameters. The variable's value and the list parser (`parseList`) are arguments. A malformed list, which makes the module fail to import, is `MalformedList`.
- Floats and unit conversion are not modelled. Indents, sizes and line spacing are whole numbers, and `Pt(x).pt == x` is taken as the identity.
- Style-name resolution is reduced to membership in the template's set of style names. python-docx can also find a style through its UI-name translation; that is not modelled.
- Formats.FromHex: accepts exactly six hexadecimal digits. `RGBColor.from_string` may be more lenient, because the library's parser is not part of this model.
- The library's own enumeration members are not modelled. The reader is taken to print only the four alignment names at docx_tools.py:77 and the highlight names at docx_tools.py:49-69, and to print any underline value as itself. The library's alignment enumeration has further members, such as DISTRIBUTE and JUSTIFY_LOW, that the model's `Alignment` cannot hold. Its integer-valued highlight and underline members, some of which are falsy, are not part of this model either.
- The check-then-save race is not modelled. A file created between the overwrite check and the save would be overwritten, but the model treats the call as atomic.
- Tables are not modelled, because `read_docx` walks `doc.paragraphs` only.
- `GetAllowedDir` selects the list parse when `[` appears anywhere in the value, not only at its start, as docx_tools.py:19 does.

=== FILE: formats.dfy ===
/** The closed name tables the tool exchanges through its dictionaries:
    paragraph alignment (four names), run highlight colour (nineteen names) and
    the six-hex-digit text of an RGB font colour. */
module Formats {
  import opened Results

  // ---------------------------------------------------------------- alignment

  datatype Alignment = Left | Center | Right | Justify

  /** `alignment.name` */
  function AlignmentName(a: Alignment): string {
    match a
    case Left => "LEFT"
    case Center => "CENTER"
    case Right => "RIGHT"
    case Justify => "JUSTIFY"
  }

  /** `WD_ALIGN_PARAGRAPH[name]`; `None` is the lookup failure. */
  function AlignmentFromName(s: string): (r: Option<Alignment>)
    ensures forall a :: r == Some(a) <==> AlignmentName(a) == s
  {
    if s == "LEFT" then Some(Left)
    else if s == "CENTER" then Some(Center)
    else if s == "RIGHT" then Some(Right)
    else if s == "JUSTIFY" then Some(Justify)
    else None
  }

  // ---------------------------------------------------------------- highlight

  datatype Highlight =
    | Yellow | Green | Cyan | Pink | Blue | Red | Gray
    | DarkYellow | DarkGreen | DarkCyan | DarkPink | DarkBlue | DarkRed | DarkGray
    | Black | White | Turquoise | NoHighlight | Auto

  /** `highlight_color.name` */
  function HighlightName(h: Highlight): string {
    match h
    case Yellow => "YELLOW"
    case Green => "GREEN"
    case Cyan => "CYAN"
    case Pink => "PINK"
    case Blue => "BLUE"
    case Red => "RED"
    case Gray => "GRAY"
    case DarkYellow => "DARK_YELLOW"
    case DarkGreen => "DARK_GREEN"
    case DarkCyan => "DARK_CYAN"
    case DarkPink => "DARK_PINK"
    case DarkBlue => "DARK_BLUE"
    case DarkRed => "DARK_RED"
    case DarkGray => "DARK_GRAY"
    case Black => "BLACK"
    case White => "WHITE"
    case Turquoise => "TURQUOISE"
    case NoHighlight => "NONE"
    case Auto => "AUTO"
  }

  /** `WD_COLOR_INDEX[name]`; `None` is the lookup failure. */
  function HighlightFromName(s: string): (r: Option<Highlight>)
    ensures forall h :: r == Some(h) <==> HighlightName(h) == s
  {
    if s == "YELLOW" then Some(Yellow)
    else if s == "GREEN" then Some(Green)
    else if s == "CYAN" then Some(Cyan)
    else if s == "PINK" then Some(Pink)
    else if s == "BLUE" then Some(Blue)
    else if s == "RED" then Some(Red)
    else if s == "GRAY" then Some(Gray)
    else if s == "DARK_YELLOW" then Some(DarkYellow)
    else if s == "DARK_GREEN" then Some(DarkGreen)
    else if s == "DARK_CYAN" then Some(DarkCyan)
    else if s == "DARK_PINK" then Some(DarkPink)
    else if s == "DARK_BLUE" then Some(DarkBlue)
    else if s == "DARK_RED" then Some(DarkRed)
    else if s == "DARK_GRAY" then Some(DarkGray)
    else if s == "BLACK" then Some(Black)
    else if s == "WHITE" then Some(White)
    else if s == "TURQUOISE" then Some(Turquoise)
    else if s == "NONE" then Some(NoHighlight)
    else if s == "AUTO" then Some(Auto)
    else None
  }

  // ---------------------------------------------------------------- colour

  type Byte = x: int | 0 <= x < 256

  datatype Rgb = Rgb(r: Byte, g: Byte, b: Byte)

  const HexDigits: string := "0123456789ABCDEF"

  /** The text `str(rgb)` produces: six upper-case hexadecimal digits. */
  predicate IsColorText(s: string) {
    |s| == 6 && forall i :: 0 <= i < 6 ==> s[i] in HexDigits
  }

  /** The value of one hexadecimal digit, either case. */
  function DigitValue(c: char): (r: Option<nat>)
    ensures r.Some? ==> r.value < 16
    ensures c in HexDigits ==> r.Some? && HexDigits[r.value] == c
  {
    if '0' <= c <= '9' then Some(c as int - '0' as int)
    else if 'A' <= c <= 'F' then Some(c as int - 'A' as int + 10)
    else if 'a' <= c <= 'f' then Some(c as int - 'a' as int + 10)
    else None
  }

  function ByteText(x: Byte): string {
    [HexDigits[x / 16], HexDigits[x % 16]]
  }

  /** `str(font.color.rgb)` */
  function ToHex(c: Rgb): (s: string)
    ensures IsColorText(s)
  {
    ByteText(c.r) + ByteText(c.g) + ByteText(c.b)
  }

  /** A lower-case digit has the value of its upper-case form. */
  lemma DigitValueIgnoresCase(c: char)
    requires 'a' <= c <= 'f'
    ensures DigitValue(c).Some? && DigitValue(c) == DigitValue((c as int - 32) as char)
  {
  }

  function ParseByte(hi: char, lo: char): (r: Option<Byte>)
    ensures r.Some? <==> DigitValue(hi).Some? && DigitValue(lo).Some?
    ensures r.Some? ==> r.value == 16 * DigitValue(hi).value + DigitValue(lo).value
  {
    match (DigitValue(hi), DigitValue(lo))
    case (Some(h), Some(l)) => Some(h * 16 + l)
    case _ => None
  }

  /** Six hexadecimal digits, either case. */
  predicate IsHexText(s: string) {
    |s| == 6 && forall i :: 0 <= i < 6 ==> DigitValue(s[i]).Some?
  }

  /** `RGBColor.from_string`, restricted to six hexadecimal digits; `None` is the
      parse failure. */
  function FromHex(s: string): (r: Option<Rgb>)
    ensures r.Some? <==> IsHexText(s)
    ensures r.Some? ==>
              r.value == Rgb(16 * DigitValue(s[0]).value + DigitValue(s[1]).value,
                             16 * DigitValue(s[2]).value + DigitValue(s[3]).value,
                             16 * DigitValue(s[4]).value + DigitValue(s[5]).value)
  {
    if |s| != 6 then None
    else
      var r, g, b := ParseByte(s[0], s[1]), ParseByte(s[2], s[3]), ParseByte(s[4], s[5]);
      if r.Some? && g.Some? && b.Some? then Some(Rgb(r.value, g.value, b.value)) else None
  }

  lemma ByteTextParses(x: Byte)
    ensures ParseByte(ByteText(x)[0], ByteText(x)[1]) == Some(x)
  {
    var t := ByteText(x);
    assert DigitValue(t[0]) == Some(x / 16);
    assert DigitValue(t[1]) == Some(x % 16);
  }

  /** Parsing the text of a colour gives the colour back. */
  lemma {:induction false} FromHexToHex(c: Rgb)
    ensures FromHex(ToHex(c)) == Some(c)
  {
    ByteTextParses(c.r);
    ByteTextParses(c.g);
    ByteTextParses(c.b);
  }

  lemma DigitPair(h: nat, l: nat)
    requires h < 16 && l < 16
    ensures (h * 16 + l) / 16 == h && (h * 16 + l) % 16 == l
  {
  }

  lemma PairParses(hi: char, lo: char)
    requires hi in HexDigits && lo in HexDigits
    ensures ParseByte(hi, lo).Some? && ByteText(ParseByte(hi, lo).value) == [hi, lo]
  {
    var dh, dl := DigitValue(hi), DigitValue(lo);
    var h, l := dh.value, dl.value;
    assert HexDigits[h] == hi && HexDigits[l] == lo;
    DigitPair(h, l);
    var x: Byte := h * 16 + l;
    assert ParseByte(hi, lo) == Some(x);
    assert ByteText(x) == [HexDigits[h], HexDigits[l]];
  }

  lemma FromHexOfPairs(s: string)
    requires |s| == 6
    requires ParseByte(s[0], s[1]).Some? && ParseByte(s[2], s[3]).Some? && ParseByte(s[4], s[5]).Some?
    ensures FromHex(s) == Some(Rgb(ParseByte(s[0], s[1]).value, ParseByte(s[2], s[3]).value, ParseByte(s[4], s[5]).value))
  {
  }

  lemma ToHexOfPairs(s: string, c: Rgb)
    requires |s| == 6
    requires ByteText(c.r) == [s[0], s[1]] && ByteText(c.g) == [s[2], s[3]] && ByteText(c.b) == [s[4], s[5]]
    ensures ToHex(c) == s
  {
    assert s == [s[0], s[1]] + [s[2], s[3]] + [s[4], s[5]];
  }

  /** Colour text is exactly what printing the parsed colour produces. */
  lemma {:induction false} ToHexFromHex(s: string)
    requires IsColorText(s)
    ensures FromHex(s).Some? && ToHex(FromHex(s).value) == s
  {
    PairParses(s[0], s[1]);
    PairParses(s[2], s[3]);
    PairParses(s[4], s[5]);
    FromHexOfPairs(s);
    ToHexOfPairs(s, FromHex(s).value);
  }
}

=== FILE: model.dfy ===
/** The entities the tool works with.

    On one side, the document as the document library presents it: paragraphs
    with a style name, an optional alignment, optional indents and spacing, and
    runs whose font attributes are each unset (`None`) or explicitly set.
    On the other side, the dictionaries the tool exchanges (`RunData`,
    `ParagraphData`, `DocData`): every optional key is an `Option` field, so an
    absent key and a key present with a default value stay distinguishable.

    Lengths, font sizes and line spacing are whole numbers of points here. */
module Model {
  import opened Results
  import opened Formats
  import opened Paths

  // ------------------------------------------------------------ the document

  /** `font.underline`: `True`/`False`, or a named underline style. */
  datatype Underline = UnderlineOn(on: bool) | UnderlineStyle(style: string)

  /** The explicit character formatting of one run. */
  datatype Font = Font(
    bold: Option<bool>,
    italic: Option<bool>,
    underline: Option<Underline>,
    strike: Option<bool>,
    doubleStrike: Option<bool>,
    superscript: Option<bool>,
    subscript: Option<bool>,
    name: Option<string>,
    size: Option<int>,
    color: Option<Rgb>,
    highlight: Option<Highlight>,
    allCaps: Option<bool>,
    smallCaps: Option<bool>,
    hidden: Option<bool>)

  /** The font of a freshly added run: nothing is set. */
  const DefaultFont: Font :=
    Font(None, None, None, None, None, None, None, None, None, None, None, None, None, None)

  datatype Run = Run(text: string, font: Font)

  datatype ParagraphFormat = ParagraphFormat(
    leftIndent: Option<int>,
    rightIndent: Option<int>,
    firstLineIndent: Option<int>,
    lineSpacing: Option<int>)

  const DefaultFormat: ParagraphFormat := ParagraphFormat(None, None, None, None)

  datatype Paragraph = Paragraph(
    style: string,
    alignment: Option<Alignment>,
    format: ParagraphFormat,
    runs: seq<Run>)

  /** The name of the style a paragraph has when none is assigned. */
  const NormalStyle: string := "Normal"

  /** What `add_paragraph()` appends. */
  const BlankParagraph: Paragraph := Paragraph(NormalStyle, None, DefaultFormat, [])

  // ------------------------------------------------------------ the dictionaries

  /** A string value, or a `get` of a string key, is truthy when present and non-empty. */
  predicate Truthy(s: Option<string>) {
    s.Some? && s.value != ""
  }

  datatype RunData = RunData(
    text: Option<string>,
    bold: Option<bool>,
    italic: Option<bool>,
    underline: Option<Underline>,
    strikethrough: Option<bool>,
    doubleStrike: Option<bool>,
    superscript: Option<bool>,
    subscript: Option<bool>,
    fontName: Option<string>,
    fontSize: Option<int>,
    fontColor: Option<string>,
    highlight: Option<string>,
    allCaps: Option<bool>,
    smallCaps: Option<bool>,
    hidden: Option<bool>)

  datatype ParagraphData = ParagraphData(
    style: Option<string>,
    alignment: Option<string>,
    leftIndent: Option<int>,
    rightIndent: Option<int>,
    firstLineIndent: Option<int>,
    lineSpacing: Option<int>,
    runs: Option<seq<RunData>>)

  type DocData = seq<ParagraphData>

  // ------------------------------------------------------------ errors and files

  datatype Error =
    | NotAuthorized                // NotAuthorizedError
    | FileNotFound                 // opening a path that does not exist
    | NotADocument                 // opening a file that is not a document package
    | AlreadyExists                // the ValueError of the overwrite check
    | StyleNotFound(style: string) // assigning a style name the document lacks
    | UnknownAlignment(name: string)
    | UnknownHighlight(name: string)
    | BadColor(text: string)
    | MissingKey(key: string)      // `para_info["runs"]`, `run_info["text"]`

  datatype FileContent = DocumentFile(body: seq<Paragraph>) | OtherFile

  /** The files the tool can see, by canonical path. */
  class Disk {
    var files: map<Path, FileContent>

    /** `doc.save(path)`: creates or replaces exactly one file. */
    method Save(path: Path, body: seq<Paragraph>)
      modifies this
      ensures files == old(files)[path := DocumentFile(body)]
    {
      files := files[path := DocumentFile(body)];
    }
  }

  // ------------------------------------------------------------ document under construction

  /** `p` with the font of its last run replaced by `f`. */
  function WithLastFont(p: Paragraph, f: Font): (q: Paragraph)
    requires p.runs != []
    ensures q.style == p.style && q.alignment == p.alignment && q.format == p.format
    ensures |q.runs| == |p.runs| && q.runs[..|p.runs| - 1] == p.runs[..|p.runs| - 1]
    ensures q.runs[|p.runs| - 1] == Run(p.runs[|p.runs| - 1].text, f)
  {
    p.(runs := p.runs[|p.runs| - 1 := p.runs[|p.runs| - 1].(font := f)])
  }

  /** An in-memory document built by the writer: the paragraphs added so far and
      the style names its template defines. Every setter acts on the most
      recently added paragraph or run, which is the only one the writer touches. */
  class Document {
    const styles: set<string>
    var body: seq<Paragraph>

    /** `Document()`: a new document from the template, with no paragraphs. */
    constructor (styles: set<string>)
      ensures this.styles == styles && body == []
    {
      this.styles := styles;
      body := [];
    }

    /** The paragraph the setters act on. */
    function Last(): Paragraph
      reads this
      requires body != []
    {
      body[|body| - 1]
    }

    /** `doc.add_paragraph()` */
    method AddParagraph()
      modifies this
      ensures body == old(body) + [BlankParagraph]
    {
      body := body + [BlankParagraph];
    }

    /** `para.style = name`; fails when the template has no such style. */
    method SetStyle(name: string) returns (found: bool)
      requires body != []
      modifies this
      ensures found <==> name in styles
      ensures found ==> body == old(body)[|old(body)| - 1 := old(Last()).(style := name)]
      ensures !found ==> body == old(body)
    {
      found := name in styles;
      if found {
        body := body[|body| - 1 := Last().(style := name)];
      }
    }

    /** `para.alignment = value` */
    method SetAlignment(a: Alignment)
      requires body != []
      modifies this
      ensures body == old(body)[|old(body)| - 1 := old(Last()).(alignment := Some(a))]
    {
      body := body[|body| - 1 := Last().(alignment := Some(a))];
    }

    /** The four assignments through `para.paragraph_format`. */
    method SetFormat(f: ParagraphFormat)
      requires body != []
      modifies this
      ensures body == old(body)[|old(body)| - 1 := old(Last()).(format := f)]
    {
      body := body[|body| - 1 := Last().(format := f)];
    }

    /** `para.add_run(text)`: a run with the default font. */
    method AddRun(text: string)
      requires body != []
      modifies this
      ensures body == old(body)[|old(body)| - 1 := old(Last()).(runs := old(Last()).runs + [Run(text, DefaultFont)])]
    {
      body := body[|body| - 1 := Last().(runs := Last().runs + [Run(text, DefaultFont)])];
    }

    /** The assignments through `run.font` of the last run. */
    method SetFont(f: Font)
      requires body != [] && Last().runs != []
      modifies this
      ensures body == old(body)[|old(body)| - 1 := WithLastFont(old(Last()), f)]
    {
      body := body[|body| - 1 := WithLastFont(Last(), f)];
    }
  }
}

=== FILE: paths.dfy ===
/** The path authorization guard: the process-wide allow-list read from the
    ALLOWED_DIR environment variable and the accept/reject decision made for
    every path handed to the reader or the writer.

    A path is the sequence of components of its canonical absolute form (what
    `Path(...).resolve()` yields); the root directory is the empty sequence, and
    the strict ancestors of a path (its `parents`) are its strict prefixes. */
module Paths {
  import opened Results

  type Path = seq<string>

  /** The configured allow-list: `Unrestricted` is Python's `None`. */
  datatype AllowList = Unrestricted | Dirs(dirs: seq<Path>)

  /** The list text could not be parsed; the import of the tool fails. */
  datatype ConfigError = MalformedList

  /** `d` is one of the `parents` of `p`. */
  predicate IsStrictAncestor(d: Path, p: Path) {
    |d| < |p| && p[..|d|] == d
  }

  /** The reference meaning of the guard: `d` covers `p` when `p` is `d` itself
      or lies somewhere below it. */
  predicate Covers(d: Path, p: Path) {
    d == p || IsStrictAncestor(d, p)
  }

  /** Python's `any(... for dir in dirs)`. */
  function Any(dirs: seq<Path>, test: Path -> bool): (r: bool)
    ensures r <==> exists i :: 0 <= i < |dirs| && test(dirs[i])
  {
    if dirs == [] then false
    else if test(dirs[0]) then true
    else
      var r := Any(dirs[1..], test);
      assert r ==> exists i :: 0 <= i < |dirs[1..]| && test(dirs[1..][i]);
      assert (exists i :: 0 <= i < |dirs| && test(dirs[i])) ==> exists i :: 0 <= i < |dirs[1..]| && test(dirs[1..][i]) by {
        if exists i :: 0 <= i < |dirs| && test(dirs[i]) {
          var i :| 0 <= i < |dirs| && test(dirs[i]);
          assert i != 0;
          assert test(dirs[1..][i - 1]);
        }
      }
      r
  }

  /** `_get_allowed_dir`: an absent or empty variable means no restriction; a
      value containing `[` anywhere is parsed as a list of directories; any
      other value is one directory. Every entry is canonicalised by `resolve`. */
  function GetAllowedDir(env: Option<string>, parseList: string -> Option<seq<string>>, resolve: string -> Path)
    : (r: Result<AllowList, ConfigError>)
    ensures (env == None || env == Some("")) ==> r == Success(Unrestricted)
    ensures env.Some? && env.value != "" && '[' !in env.value ==> r == Success(Dirs([resolve(env.value)]))
    ensures env.Some? && '[' in env.value ==>
              (r.Success? <==> parseList(env.value).Some?) &&
              (r.Success? ==> r.value.Dirs? && |r.value.dirs| == |parseList(env.value).value| &&
                              forall i :: 0 <= i < |r.value.dirs| ==> r.value.dirs[i] == resolve(parseList(env.value).value[i]))
  {
    match env
    case None => Success(Unrestricted)
    case Some(text) =>
      if text == "" then Success(Unrestricted)
      else if '[' in text then
        match parseList(text)
        case None => Failure(MalformedList)
        case Some(items) => Success(Dirs(seq(|items|, i requires 0 <= i < |items| => resolve(items[i]))))
      else Success(Dirs([resolve(text)]))
  }

  /** `_path_is_allowed`; `false` stands for raising `NotAuthorizedError`. */
  function PathIsAllowed(allow: AllowList, p: Path): (ok: bool)
    ensures allow.Unrestricted? ==> ok
    ensures allow.Dirs? ==> (ok <==> exists i :: 0 <= i < |allow.dirs| && Covers(allow.dirs[i], p))
  {
    match allow
    case Unrestricted => true
    case Dirs(dirs) =>
      if Any(dirs, d => d == p) then true
      else Any(dirs, d => IsStrictAncestor(d, p))
  }

  /** With no allow-list configured every path is accepted. */
  lemma NoConfigurationAllowsEverything(env: Option<string>, parseList: string -> Option<seq<string>>,
                                        resolve: string -> Path, p: Path)
    requires env == None || env == Some("")
    ensures GetAllowedDir(env, parseList, resolve).Success?
    ensures PathIsAllowed(GetAllowedDir(env, parseList, resolve).value, p)
  {
  }

  /** A configured list that is empty rejects every path: it is not `None`. */
  lemma EmptyListRejectsEverything(p: Path)
    ensures !PathIsAllowed(Dirs([]), p)
  {
  }

  /** Adding directories to the list never rejects a path that was accepted. */
  lemma AllowListMonotone(dirs: seq<Path>, more: seq<Path>, p: Path)
    requires forall d :: d in dirs ==> d in more
    requires PathIsAllowed(Dirs(dirs), p)
    ensures PathIsAllowed(Dirs(more), p)
  {
    var i :| 0 <= i < |dirs| && Covers(dirs[i], p);
    assert dirs[i] in more;
    var j :| 0 <= j < |more| && more[j] == dirs[i];
  }

  /** Everything below an accepted path is accepted too. */
  lemma DescendantsOfAllowedAreAllowed(allow: AllowList, p: Path, q: Path)
    requires PathIsAllowed(allow, p) && IsStrictAncestor(p, q)
    ensures PathIsAllowed(allow, q)
  {
    if allow.Dirs? {
      var i :| 0 <= i < |allow.dirs| && Covers(allow.dirs[i], p);
      var d := allow.dirs[i];
      if d != p {
        assert q[..|d|] == q[..|p|][..|d|];
      }
      assert Covers(d, q);
    }
  }

  /** Components are compared whole: `/data2` is not below `/data`. */
  lemma AuthorizationExamples()
    ensures PathIsAllowed(Dirs([["data"]]), ["data", "sub", "x.docx"])
    ensures PathIsAllowed(Dirs([["data"]]), ["data"])
    ensures !PathIsAllowed(Dirs([["data"]]), ["other", "x.docx"])
    ensures !PathIsAllowed(Dirs([["data"]]), ["data2", "x.docx"])
    ensures !PathIsAllowed(Dirs([["data", "sub"]]), ["data"])
  {
    assert Covers(["data"], ["data", "sub", "x.docx"]);
    assert ["data", "sub"] != ["data"];
    assert ["data2", "x.docx"][..1] == ["data2"];
    assert ["other", "x.docx"][..1] == ["other"];
  }
}

=== FILE: reader.dfy ===
/** `read_docx`: the walk over a document's paragraphs that turns each into a
    `ParagraphData` holding only the explicitly set, non-default formatting. */
module Reader {
  import opened Results
  import opened Formats
  import opened Paths
  import opened Model

  // ------------------------------------------------------------ what a read can produce

  /** A boolean key is either absent or `True`. */
  predicate IsFlag(v: Option<bool>) {
    v != Some(false)
  }

  /** The shape of every run dictionary the reader emits: `text` is always
      there, no key carries a false, empty or zero value, the colour is printed
      colour text and the highlight is one of the nineteen names. */
  predicate CanonicalRun(rd: RunData) {
    && rd.text.Some?
    && IsFlag(rd.bold) && IsFlag(rd.italic) && IsFlag(rd.strikethrough) && IsFlag(rd.doubleStrike)
    && IsFlag(rd.superscript) && IsFlag(rd.subscript)
    && IsFlag(rd.allCaps) && IsFlag(rd.smallCaps) && IsFlag(rd.hidden)
    && rd.underline != Some(UnderlineOn(false))
    && rd.fontName != Some("")
    && rd.fontSize != Some(0)
    && (rd.fontColor.Some? ==> IsColorText(rd.fontColor.value))
    && (rd.highlight.Some? ==> HighlightFromName(rd.highlight.value).Some?)
  }

  /** The paragraph-level keys the reader emits: never the "Normal" style, only
      alignment names of the enumeration, no zero indent or spacing. */
  predicate CanonicalAttributes(pd: ParagraphData) {
    && pd.style != Some(NormalStyle)
    && (pd.alignment.Some? ==> AlignmentFromName(pd.alignment.value).Some?)
    && pd.leftIndent != Some(0)
    && pd.rightIndent != Some(0)
    && pd.firstLineIndent != Some(0)
    && pd.lineSpacing != Some(0)
  }

  /** Every paragraph dictionary the reader emits has a `runs` list of canonical runs. */
  predicate CanonicalParagraph(pd: ParagraphData) {
    && CanonicalAttributes(pd)
    && pd.runs.Some?
    && forall i :: 0 <= i < |pd.runs.value| ==> CanonicalRun(pd.runs.value[i])
  }

  // ------------------------------------------------------------ the filter

  /** `if font.bold: run_data["bold"] = True` and its eight siblings. */
  function Flag(v: Option<bool>): Option<bool> {
    if v == Some(true) then Some(true) else None
  }

  /** A length, size or spacing is emitted when it is set and not zero. */
  function NonZero(v: Option<int>): Option<int> {
    if v.Some? && v.value != 0 then v else None
  }

  /** The underline value is emitted itself when it is truthy. */
  function TruthyUnderline(u: Option<Underline>): Option<Underline> {
    if u.Some? && u.value != UnderlineOn(false) then u else None
  }

  /** The dictionary built for one run. */
  function RunView(run: Run): (rd: RunData)
    ensures CanonicalRun(rd)
    ensures rd.text == Some(run.text)
  {
    var f := run.font;
    RunData(
      text := Some(run.text),
      bold := Flag(f.bold),
      italic := Flag(f.italic),
      underline := TruthyUnderline(f.underline),
      strikethrough := Flag(f.strike),
      doubleStrike := Flag(f.doubleStrike),
      superscript := Flag(f.superscript),
      subscript := Flag(f.subscript),
      fontName := if Truthy(f.name) then f.name else None,
      fontSize := NonZero(f.size),
      fontColor := if f.color.Some? then Some(ToHex(f.color.value)) else None,
      highlight := if f.highlight.Some? then Some(HighlightName(f.highlight.value)) else None,
      allCaps := Flag(f.allCaps),
      smallCaps := Flag(f.smallCaps),
      hidden := Flag(f.hidden))
  }

  /** The paragraph-level keys, before `runs` is added. */
  function ParagraphAttributes(p: Paragraph): (pd: ParagraphData)
    ensures CanonicalAttributes(pd) && pd.runs.None?
  {
    ParagraphData(
      style := if p.style != NormalStyle then Some(p.style) else None,
      alignment := if p.alignment.Some? then Some(AlignmentName(p.alignment.value)) else None,
      leftIndent := NonZero(p.format.leftIndent),
      rightIndent := NonZero(p.format.rightIndent),
      firstLineIndent := NonZero(p.format.firstLineIndent),
      lineSpacing := NonZero(p.format.lineSpacing),
      runs := None)
  }

  /** The dictionary built for one paragraph. */
  function ParagraphView(p: Paragraph): (pd: ParagraphData)
    ensures CanonicalParagraph(pd)
    ensures pd.runs.Some? && |pd.runs.value| == |p.runs|
    ensures forall i :: 0 <= i < |p.runs| ==> pd.runs.value[i] == RunView(p.runs[i])
  {
    ParagraphAttributes(p).(runs := Some(seq(|p.runs|, i requires 0 <= i < |p.runs| => RunView(p.runs[i]))))
  }

  /** The value `read_docx` returns for a document body. */
  function DocView(body: seq<Paragraph>): (d: DocData)
    ensures |d| == |body| && forall i :: 0 <= i < |body| ==> d[i] == ParagraphView(body[i])
  {
    seq(|body|, i requires 0 <= i < |body| => ParagraphView(body[i]))
  }

  // ------------------------------------------------------------ read_docx

  /** Authorization first, then opening the file, then one dictionary per
      paragraph in document order, each with one dictionary per run in order. */
  method ReadDocx(allow: AllowList, disk: Disk, path: Path) returns (r: Result<DocData, Error>)
    ensures !PathIsAllowed(allow, path) ==> r == Failure(NotAuthorized)
    ensures PathIsAllowed(allow, path) && path !in disk.files ==> r == Failure(FileNotFound)
    ensures PathIsAllowed(allow, path) && path in disk.files && disk.files[path].OtherFile? ==> r == Failure(NotADocument)
    ensures PathIsAllowed(allow, path) && path in disk.files && disk.files[path].DocumentFile? ==>
              r.Success? && |r.value| == |disk.files[path].body| &&
              forall i :: 0 <= i < |r.value| ==> r.value[i] == ParagraphView(disk.files[path].body[i])
  {
    if !PathIsAllowed(allow, path) {
      return Failure(NotAuthorized);
    }
    if path !in disk.files {
      return Failure(FileNotFound);
    }
    var file := disk.files[path];
    if file.OtherFile? {
      return Failure(NotADocument);
    }
    var body := file.body;
    var content: DocData := [];
    for k := 0 to |body|
      invariant |content| == k
      invariant forall i :: 0 <= i < k ==> content[i] == ParagraphView(body[i])
    {
      var para := body[k];
      var paraData := ParagraphAttributes(para);
      var runsData: seq<RunData> := [];
      for j := 0 to |para.runs|
        invariant |runsData| == j
        invariant forall i :: 0 <= i < j ==> runsData[i] == RunView(para.runs[i])
      {
        runsData := runsData + [RunView(para.runs[j])];
      }
      assert runsData == ParagraphView(para).runs.value;
      paraData := paraData.(runs := Some(runsData));
      content := content + [paraData];
    }
    return Success(content);
  }

  // ------------------------------------------------------------ default suppression

  /** Each run key is present exactly when the font attribute behind it is
      truthy, and the boolean keys then hold `True`. */
  lemma RunKeysMirrorFont(run: Run)
    ensures RunView(run).bold.Some? <==> run.font.bold == Some(true)
    ensures RunView(run).italic.Some? <==> run.font.italic == Some(true)
    ensures RunView(run).strikethrough.Some? <==> run.font.strike == Some(true)
    ensures RunView(run).doubleStrike.Some? <==> run.font.doubleStrike == Some(true)
    ensures RunView(run).superscript.Some? <==> run.font.superscript == Some(true)
    ensures RunView(run).subscript.Some? <==> run.font.subscript == Some(true)
    ensures RunView(run).allCaps.Some? <==> run.font.allCaps == Some(true)
    ensures RunView(run).smallCaps.Some? <==> run.font.smallCaps == Some(true)
    ensures RunView(run).hidden.Some? <==> run.font.hidden == Some(true)
    ensures RunView(run).underline.Some? <==> run.font.underline.Some? && run.font.underline != Some(UnderlineOn(false))
    ensures RunView(run).underline.Some? ==> RunView(run).underline == run.font.underline
    ensures RunView(run).fontName.Some? <==> run.font.name.Some? && run.font.name.value != ""
    ensures RunView(run).fontSize.Some? <==> run.font.size.Some? && run.font.size.value != 0
    ensures RunView(run).fontColor.Some? <==> run.font.color.Some?
    ensures RunView(run).highlight.Some? <==> run.font.highlight.Some?
  {
  }

  /** Each paragraph key is present exactly when the value behind it is set and
      not the default. */
  lemma ParagraphKeysMirrorFormat(p: Paragraph)
    ensures ParagraphView(p).style.Some? <==> p.style != NormalStyle
    ensures ParagraphView(p).alignment.Some? <==> p.alignment.Some?
    ensures ParagraphView(p).leftIndent.Some? <==> p.format.leftIndent.Some? && p.format.leftIndent.value != 0
    ensures ParagraphView(p).rightIndent.Some? <==> p.format.rightIndent.Some? && p.format.rightIndent.value != 0
    ensures ParagraphView(p).firstLineIndent.Some? <==> p.format.firstLineIndent.Some? && p.format.firstLineIndent.value != 0
    ensures ParagraphView(p).lineSpacing.Some? <==> p.format.lineSpacing.Some? && p.format.lineSpacing.value != 0
  {
  }

  /** A "Normal" paragraph with nothing set yields only its `runs`, and a run
      whose font is unset, or explicitly set to false, yields only its `text`. */
  lemma DefaultsAreSuppressed(text: string, runs: seq<Run>)
    ensures ParagraphView(Paragraph(NormalStyle, None, DefaultFormat, runs)).(runs := None) ==
            ParagraphData(None, None, None, None, None, None, None)
    ensures RunView(Run(text, DefaultFont)) ==
            RunData(Some(text), None, None, None, None, None, None, None, None, None, None, None, None, None, None)
    ensures RunView(Run(text, DefaultFont.(bold := Some(false), italic := Some(false), underline := Some(UnderlineOn(false))))) ==
            RunView(Run(text, DefaultFont))
  {
  }
}

=== FILE: results.dfy ===
/** Failure-carrying values shared by the reader and the writer, and the
    "apply to each element, stop at the first exception" traversal that every
    loop of the writer performs. */
module Results {

  datatype Option<+T> = None | Some(value: T)

  datatype Result<+T, +E> = Success(value: T) | Failure(error: E)

  /** Applies `f` to the elements of `xs` in order; the first failure aborts the
      whole traversal, as an exception raised inside a Python `for` loop does. */
  function MapAll<A, B, E>(f: A -> Result<B, E>, xs: seq<A>): (r: Result<seq<B>, E>)
    ensures r.Success? <==> forall i :: 0 <= i < |xs| ==> f(xs[i]).Success?
    ensures r.Success? ==> |r.value| == |xs| && forall i :: 0 <= i < |xs| ==> f(xs[i]) == Success(r.value[i])
    ensures r.Failure? ==>
              exists i :: 0 <= i < |xs| && f(xs[i]) == Failure(r.error) && forall j :: 0 <= j < i ==> f(xs[j]).Success?
  {
    if xs == [] then Success([])
    else
      match f(xs[0])
      case Failure(e) => Failure(e)
      case Success(y) =>
        var rest := MapAll(f, xs[1..]);
        if rest.Failure? then
          ghost var k :| 0 <= k < |xs[1..]| && f(xs[1..][k]) == Failure(rest.error)
                         && forall j :: 0 <= j < k ==> f(xs[1..][j]).Success?;
          assert f(xs[k + 1]) == Failure(rest.error);
          Failure(rest.error)
        else
          Success([y] + rest.value)
  }

  /** One more successful step extends the traversal of a prefix by one value. */
  lemma MapAllSnoc<A, B, E>(f: A -> Result<B, E>, xs: seq<A>, i: nat)
    requires i < |xs| && MapAll(f, xs[..i]).Success? && f(xs[i]).Success?
    ensures MapAll(f, xs[..i + 1]) == Success(MapAll(f, xs[..i]).value + [f(xs[i]).value])
  {
    var pre := MapAll(f, xs[..i]).value;
    var ys := xs[..i + 1];
    forall k | 0 <= k < |ys| ensures f(ys[k]).Success? {
      if k < i { assert ys[k] == xs[..i][k]; }
    }
    var all := MapAll(f, ys).value;
    forall k | 0 <= k < |ys| ensures all[k] == (pre + [f(xs[i]).value])[k] {
      if k < i { assert ys[k] == xs[..i][k]; }
    }
    assert all == pre + [f(xs[i]).value];
  }

  /** A failing step after a successful prefix is the failure of the whole traversal. */
  lemma MapAllStop<A, B, E>(f: A -> Result<B, E>, xs: seq<A>, i: nat)
    requires i < |xs| && MapAll(f, xs[..i]).Success? && f(xs[i]).Failure?
    ensures MapAll(f, xs) == Failure(f(xs[i]).error)
  {
    forall j | 0 <= j < i ensures f(xs[j]).Success? {
      assert xs[j] == xs[..i][j];
    }
    var r := MapAll(f, xs);
    assert r.Failure?;
    var k :| 0 <= k < |xs| && f(xs[k]) == Failure(r.error) && forall j :: 0 <= j < k ==> f(xs[j]).Success?;
    assert k == i;
  }
}

=== FILE: roundtrip.dfy ===
/** Reading what was written: for a document whose paragraph styles the new
    document's template defines, the writer accepts every dictionary the reader
    emits, and read → write → read is the identity on what the reader sees.
    A paragraph style the template lacks makes the write fail with
    `StyleNotFound` instead. */
module RoundTrip {
  import opened Results
  import opened Formats
  import opened Paths
  import opened Model
  import opened Reader
  import opened Writer

  /** A flag the reader emits, raised on an unset attribute, reads back as itself. */
  lemma FlagRaise(v: Option<bool>)
    requires IsFlag(v)
    ensures Flag(Raise(v, None)) == v
  {
    if v.Some? {
      assert v != Some(false);
      assert v.value;
    }
  }

  /** The face assignments on a run dictionary in the reader's shape succeed
      and carry the name, size, colour and highlight back. */
  lemma {:induction false} FaceRoundTrip(rd: RunData, f: Font)
    requires CanonicalRun(rd)
    ensures WithFace(rd, f).Success?
    ensures var g := WithFace(rd, f).value;
            && (rd.fontName.Some? ==> g.name == rd.fontName)
            && (rd.fontSize.Some? ==> g.size == rd.fontSize)
            && (rd.fontColor.Some? ==> g.color.Some? && ToHex(g.color.value) == rd.fontColor.value)
            && (rd.highlight.Some? ==> g.highlight.Some? && HighlightName(g.highlight.value) == rd.highlight.value)
            && g == f.(name := g.name, size := g.size, color := g.color, highlight := g.highlight)
  {
    if rd.fontColor.Some? {
      ToHexFromHex(rd.fontColor.value);
    }
    if rd.highlight.Some? {
      assert HighlightName(HighlightFromName(rd.highlight.value).value) == rd.highlight.value;
    }
  }

  /** The font written for a run dictionary in the reader's shape carries
      each key's value back, so each key is read back as it was. */
  lemma {:induction false} FontRoundTrip(rd: RunData)
    requires CanonicalRun(rd)
    ensures FontOf(rd).Success?
    ensures var f := FontOf(rd).value;
            && Flag(f.bold) == rd.bold && Flag(f.italic) == rd.italic
            && Flag(f.strike) == rd.strikethrough && Flag(f.doubleStrike) == rd.doubleStrike
            && Flag(f.superscript) == rd.superscript && Flag(f.subscript) == rd.subscript
            && Flag(f.allCaps) == rd.allCaps && Flag(f.smallCaps) == rd.smallCaps && Flag(f.hidden) == rd.hidden
            && TruthyUnderline(f.underline) == rd.underline
            && f.name == rd.fontName && NonZero(f.size) == rd.fontSize
            && (rd.fontColor.Some? <==> f.color.Some?)
            && (rd.fontColor.Some? ==> ToHex(f.color.value) == rd.fontColor.value)
            && (rd.highlight.Some? <==> f.highlight.Some?)
            && (rd.highlight.Some? ==> HighlightName(f.highlight.value) == rd.highlight.value)
  {
    var f0 := WithEffects(rd, DefaultFont);
    FaceRoundTrip(rd, f0);
    var f1 := WithFace(rd, f0).value;
    var f := WithCaps(rd, f1);
    assert FontOf(rd) == Success(f);
    assert f.bold == f0.bold && f.italic == f0.italic && f.strike == f0.strike;
    assert f.doubleStrike == f0.doubleStrike && f.superscript == f0.superscript && f.subscript == f0.subscript;
    FlagRaise(rd.bold); FlagRaise(rd.italic); FlagRaise(rd.strikethrough); FlagRaise(rd.doubleStrike);
    FlagRaise(rd.superscript); FlagRaise(rd.subscript);
    FlagRaise(rd.allCaps); FlagRaise(rd.smallCaps); FlagRaise(rd.hidden);
  }

  /** A run dictionary in the reader's shape is written without error, and
      reading the written run gives the same dictionary back. */
  lemma {:induction false} RunRoundTrip(rd: RunData)
    requires CanonicalRun(rd)
    ensures RunOf(rd).Success? && RunView(RunOf(rd).value) == rd
  {
    FontRoundTrip(rd);
    var f := FontOf(rd).value;
    assert RunOf(rd) == Success(Run(rd.text.value, f));
    var back := RunView(Run(rd.text.value, f));
    assert back.fontColor == rd.fontColor;
    assert back.highlight == rd.highlight;
  }

  /** The style names a paragraph dictionary refers to, other than the default. */
  predicate StyleKnown(pd: ParagraphData, styles: set<string>) {
    pd.style.Some? ==> pd.style.value in styles
  }

  /** A paragraph dictionary in the reader's shape whose style the template
      defines is written without error and read back unchanged. */
  lemma {:induction false} ParagraphRoundTrip(pd: ParagraphData, styles: set<string>)
    requires CanonicalParagraph(pd) && StyleKnown(pd, styles)
    ensures ParagraphOf(pd, styles).Success? && ParagraphView(ParagraphOf(pd, styles).value) == pd
  {
    var rds := pd.runs.value;
    forall j | 0 <= j < |rds| ensures RunOf(rds[j]).Success? && RunView(RunOf(rds[j]).value) == rds[j] {
      RunRoundTrip(rds[j]);
    }
    var runs := MapAll(RunOf, rds).value;
    var p := Shell(pd).(runs := runs);
    assert ParagraphOf(pd, styles) == Success(p);
    if pd.alignment.Some? {
      assert AlignmentName(AlignmentFromName(pd.alignment.value).value) == pd.alignment.value;
    }
    var back := ParagraphView(p);
    assert back.runs.value == rds by {
      forall j | 0 <= j < |rds| ensures back.runs.value[j] == rds[j] {
        assert RunOf(rds[j]) == Success(runs[j]);
      }
    }
  }

  /** A whole read result whose styles the template defines is written without
      error and read back unchanged. */
  lemma {:induction false} DocumentRoundTrip(data: DocData, styles: set<string>)
    requires forall i :: 0 <= i < |data| ==> CanonicalParagraph(data[i]) && StyleKnown(data[i], styles)
    ensures DocumentOf(data, styles).Success? && DocView(DocumentOf(data, styles).value) == data
  {
    forall i | 0 <= i < |data|
      ensures ParagraphWriter(styles)(data[i]).Success?
      ensures ParagraphView(ParagraphWriter(styles)(data[i]).value) == data[i]
    {
      ParagraphRoundTrip(data[i], styles);
    }
    var body := DocumentOf(data, styles).value;
    var back := DocView(body);
    forall i | 0 <= i < |data| ensures back[i] == data[i] {
      assert ParagraphWriter(styles)(data[i]) == Success(body[i]);
    }
  }

  /** Read, write, read: for any document whose paragraph styles the new
      document's template defines, writing what was read succeeds and reading
      the result gives what was read the first time. */
  lemma {:induction false} ReadWriteRead(body: seq<Paragraph>, styles: set<string>)
    requires forall i :: 0 <= i < |body| ==> body[i].style == NormalStyle || body[i].style in styles
    ensures DocumentOf(DocView(body), styles).Success?
    ensures DocView(DocumentOf(DocView(body), styles).value) == DocView(body)
  {
    var data := DocView(body);
    forall i | 0 <= i < |data| ensures CanonicalParagraph(data[i]) && StyleKnown(data[i], styles) {
      assert data[i] == ParagraphView(body[i]);
    }
    DocumentRoundTrip(data, styles);
  }

  /** The same through the two calls: a file read and written back to an
      authorized path that is new, or with overwrite permitted, is saved, and
      the saved file reads as the original did. */
  lemma {:induction false} WrittenFileReadsBack(allow: AllowList, files: map<Path, FileContent>,
                                              body: seq<Paragraph>, outPath: Path, overwrite: bool,
                                              styles: set<string>)
    requires PathIsAllowed(allow, outPath) && (overwrite || outPath !in files)
    requires forall i :: 0 <= i < |body| ==> body[i].style == NormalStyle || body[i].style in styles
    ensures WriteSpec(allow, files, DocView(body), outPath, overwrite, styles).Success?
    ensures DocView(WriteSpec(allow, files, DocView(body), outPath, overwrite, styles).value) == DocView(body)
  {
    ReadWriteRead(body, styles);
  }

  /** The condition on styles is needed: a paragraph whose style is neither
      "Normal" nor defined by the template makes writing what was read fail. */
  lemma {:induction false} UnknownStyleBreaksRoundTrip(body: seq<Paragraph>, styles: set<string>, i: nat)
    requires i < |body| && body[i].style != NormalStyle && body[i].style !in styles
    ensures DocumentOf(DocView(body), styles).Failure?
  {
    var pd := DocView(body)[i];
    assert pd == ParagraphView(body[i]);
    assert HeadError(pd, styles) == Some(StyleNotFound(body[i].style));
    BadEntryFailsWrite(DocView(body), styles, i);
  }
}

=== FILE: writer.dfy ===
/** `write_docx`: the guards, then a fresh document with one paragraph per
    `ParagraphData` and one run per `RunData`, each present attribute applied
    through the document's setters, then one save. */
module Writer {
  import opened Results
  import opened Formats
  import opened Paths
  import opened Model

  // ------------------------------------------------------------ what the writer builds

  /** `if run_info.get(key): font.attr = True`: a truthy flag raises the
      attribute, anything else leaves it as it was. */
  function Raise(flag: Option<bool>, current: Option<bool>): Option<bool> {
    if flag == Some(true) then Some(true) else current
  }

  /** The bold, italic, underline, strike, double-strike, superscript and
      subscript assignments. `underline` is assigned whenever the key holds a
      value, `False` included. */
  function WithEffects(rd: RunData, f: Font): Font {
    f.(bold := Raise(rd.bold, f.bold),
       italic := Raise(rd.italic, f.italic),
       underline := if rd.underline.Some? then rd.underline else f.underline,
       strike := Raise(rd.strikethrough, f.strike),
       doubleStrike := Raise(rd.doubleStrike, f.doubleStrike),
       superscript := Raise(rd.superscript, f.superscript),
       subscript := Raise(rd.subscript, f.subscript))
  }

  /** The name, size, colour and highlight assignments; an unparsable colour
      or an unknown highlight name fails, the colour being looked at first. */
  function WithFace(rd: RunData, f: Font): Result<Font, Error> {
    if Truthy(rd.fontColor) && FromHex(rd.fontColor.value).None? then
      Failure(BadColor(rd.fontColor.value))
    else if Truthy(rd.highlight) && HighlightFromName(rd.highlight.value).None? then
      Failure(UnknownHighlight(rd.highlight.value))
    else
      Success(f.(name := if Truthy(rd.fontName) then rd.fontName else f.name,
                 size := if rd.fontSize.Some? && rd.fontSize.value != 0 then rd.fontSize else f.size,
                 color := if Truthy(rd.fontColor) then FromHex(rd.fontColor.value) else f.color,
                 highlight := if Truthy(rd.highlight) then HighlightFromName(rd.highlight.value) else f.highlight))
  }

  /** The all-caps, small-caps and hidden assignments. */
  function WithCaps(rd: RunData, f: Font): Font {
    f.(allCaps := Raise(rd.allCaps, f.allCaps),
       smallCaps := Raise(rd.smallCaps, f.smallCaps),
       hidden := Raise(rd.hidden, f.hidden))
  }

  /** The font of one written run: the assignments, in source order, on the
      font of a fresh run. */
  function FontOf(rd: RunData): (r: Result<Font, Error>)
    ensures Truthy(rd.fontColor) && !IsHexText(rd.fontColor.value) ==> r == Failure(BadColor(rd.fontColor.value))
    ensures !(Truthy(rd.fontColor) && !IsHexText(rd.fontColor.value)) &&
            Truthy(rd.highlight) && HighlightFromName(rd.highlight.value).None? ==>
              r == Failure(UnknownHighlight(rd.highlight.value))
    ensures r.Failure? <==>
              (Truthy(rd.fontColor) && !IsHexText(rd.fontColor.value)) ||
              (Truthy(rd.highlight) && HighlightFromName(rd.highlight.value).None?)
    ensures r.Success? ==>
              && r.value.bold == (if rd.bold == Some(true) then Some(true) else None)
              && r.value.italic == (if rd.italic == Some(true) then Some(true) else None)
              && r.value.underline == rd.underline
              && r.value.strike == (if rd.strikethrough == Some(true) then Some(true) else None)
              && r.value.doubleStrike == (if rd.doubleStrike == Some(true) then Some(true) else None)
              && r.value.superscript == (if rd.superscript == Some(true) then Some(true) else None)
              && r.value.subscript == (if rd.subscript == Some(true) then Some(true) else None)
              && r.value.name == (if Truthy(rd.fontName) then rd.fontName else None)
              && r.value.size == (if rd.fontSize.Some? && rd.fontSize.value != 0 then rd.fontSize else None)
              && r.value.color == (if Truthy(rd.fontColor) then FromHex(rd.fontColor.value) else None)
              && (Truthy(rd.fontColor) ==> r.value.color.Some?)
              && r.value.highlight == (if Truthy(rd.highlight) then HighlightFromName(rd.highlight.value) else None)
              && (Truthy(rd.highlight) ==> r.value.highlight.Some? && HighlightName(r.value.highlight.value) == rd.highlight.value)
              && r.value.allCaps == (if rd.allCaps == Some(true) then Some(true) else None)
              && r.value.smallCaps == (if rd.smallCaps == Some(true) then Some(true) else None)
              && r.value.hidden == (if rd.hidden == Some(true) then Some(true) else None)
  {
    match WithFace(rd, WithEffects(rd, DefaultFont))
    case Failure(e) => Failure(e)
    case Success(f) => Success(WithCaps(rd, f))
  }

  /** One written run: `run_info["text"]` must be there. */
  function RunOf(rd: RunData): (r: Result<Run, Error>)
    ensures rd.text.None? ==> r == Failure(MissingKey("text"))
    ensures r.Success? <==> rd.text.Some? && FontOf(rd).Success?
    ensures r.Failure? && rd.text.Some? ==> FontOf(rd) == Failure(r.error)
    ensures r.Success? ==> Some(r.value.text) == rd.text && r.value.font == FontOf(rd).value
  {
    if rd.text.None? then Failure(MissingKey("text"))
    else
      match FontOf(rd)
      case Failure(e) => Failure(e)
      case Success(font) => Success(Run(rd.text.value, font))
  }

  /** A written paragraph before its runs: the style if given, the alignment
      if given, and each indent or spacing key that is present. */
  function Shell(pd: ParagraphData): Paragraph {
    Paragraph(
      style := if pd.style.Some? then pd.style.value else NormalStyle,
      alignment := if pd.alignment.Some? then AlignmentFromName(pd.alignment.value) else None,
      format := ParagraphFormat(pd.leftIndent, pd.rightIndent, pd.firstLineIndent, pd.lineSpacing),
      runs := [])
  }

  /** The paragraph-level failure, if any: an unknown style name, then an
      alignment name outside the enumeration. */
  function HeadError(pd: ParagraphData, styles: set<string>): Option<Error> {
    if pd.style.Some? && pd.style.value !in styles then Some(StyleNotFound(pd.style.value))
    else if pd.alignment.Some? && AlignmentFromName(pd.alignment.value).None? then
      Some(UnknownAlignment(pd.alignment.value))
    else None
  }

  /** One written paragraph, failing at the first unknown style, unknown
      alignment name, missing `runs` key or failing run, in that order. */
  function ParagraphOf(pd: ParagraphData, styles: set<string>): (r: Result<Paragraph, Error>)
    ensures pd.style.Some? && pd.style.value !in styles ==> r == Failure(StyleNotFound(pd.style.value))
    ensures HeadError(pd, styles).Some? ==> r == Failure(HeadError(pd, styles).value)
    ensures HeadError(pd, styles).None? && pd.runs.None? ==> r == Failure(MissingKey("runs"))
    ensures HeadError(pd, styles).None? && pd.runs.Some? && r.Failure? ==>
              exists j :: 0 <= j < |pd.runs.value| && RunOf(pd.runs.value[j]) == Failure(r.error) &&
                          forall k :: 0 <= k < j ==> RunOf(pd.runs.value[k]).Success?
    ensures r.Success? <==>
              HeadError(pd, styles).None? && pd.runs.Some? &&
              forall j :: 0 <= j < |pd.runs.value| ==> RunOf(pd.runs.value[j]).Success?
    ensures r.Success? ==>
              && r.value.style == (if pd.style.Some? then pd.style.value else NormalStyle)
              && (pd.alignment.Some? ==> r.value.alignment.Some? && AlignmentName(r.value.alignment.value) == pd.alignment.value)
              && (pd.alignment.None? ==> r.value.alignment.None?)
              && r.value.format == ParagraphFormat(pd.leftIndent, pd.rightIndent, pd.firstLineIndent, pd.lineSpacing)
              && |r.value.runs| == |pd.runs.value|
              && forall j :: 0 <= j < |pd.runs.value| ==> RunOf(pd.runs.value[j]) == Success(r.value.runs[j])
  {
    match HeadError(pd, styles)
    case Some(e) => Failure(e)
    case None =>
      if pd.runs.None? then Failure(MissingKey("runs"))
      else
        match MapAll(RunOf, pd.runs.value)
        case Failure(e) => Failure(e)
        case Success(runs) => Success(Shell(pd).(runs := runs))
  }

  function ParagraphWriter(styles: set<string>): ParagraphData -> Result<Paragraph, Error> {
    pd => ParagraphOf(pd, styles)
  }

  /** The body of the written document, or the first error met building it. */
  function DocumentOf(data: DocData, styles: set<string>): (r: Result<seq<Paragraph>, Error>)
    ensures r.Success? <==> forall i :: 0 <= i < |data| ==> ParagraphOf(data[i], styles).Success?
    ensures r.Success? ==>
              |r.value| == |data| && forall i :: 0 <= i < |data| ==> ParagraphOf(data[i], styles) == Success(r.value[i])
    ensures r.Failure? ==>
              exists i :: 0 <= i < |data| && ParagraphOf(data[i], styles) == Failure(r.error) &&
                          forall j :: 0 <= j < i ==> ParagraphOf(data[j], styles).Success?
  {
    var r := MapAll(ParagraphWriter(styles), data);
    assert forall i :: 0 <= i < |data| ==> ParagraphWriter(styles)(data[i]) == ParagraphOf(data[i], styles);
    r
  }

  /** The whole call: authorization, then the overwrite check, then building. */
  function WriteSpec(allow: AllowList, files: map<Path, FileContent>, data: DocData, outPath: Path,
                     overwrite: bool, styles: set<string>): (r: Result<seq<Paragraph>, Error>)
    ensures !PathIsAllowed(allow, outPath) ==> r == Failure(NotAuthorized)
    ensures PathIsAllowed(allow, outPath) && !overwrite && outPath in files ==> r == Failure(AlreadyExists)
    ensures PathIsAllowed(allow, outPath) && (overwrite || outPath !in files) ==> r == DocumentOf(data, styles)
    ensures r.Success? ==> PathIsAllowed(allow, outPath) && (overwrite || outPath !in files)
  {
    if !PathIsAllowed(allow, outPath) then Failure(NotAuthorized)
    else if !overwrite && outPath in files then Failure(AlreadyExists)
    else DocumentOf(data, styles)
  }

  // ------------------------------------------------------------ write_docx

  method ApplyEffects(info: RunData, font: Font) returns (r: Font)
    ensures r == WithEffects(info, font)
  {
    r := font;
    if info.bold == Some(true) { r := r.(bold := Some(true)); }
    if info.italic == Some(true) { r := r.(italic := Some(true)); }
    if info.underline.Some? { r := r.(underline := info.underline); }
    if info.strikethrough == Some(true) { r := r.(strike := Some(true)); }
    if info.doubleStrike == Some(true) { r := r.(doubleStrike := Some(true)); }
    if info.superscript == Some(true) { r := r.(superscript := Some(true)); }
    if info.subscript == Some(true) { r := r.(subscript := Some(true)); }
  }

  method ApplyFace(info: RunData, font: Font) returns (r: Result<Font, Error>)
    ensures r == WithFace(info, font)
  {
    var f := font;
    if Truthy(info.fontName) { f := f.(name := info.fontName); }
    if info.fontSize.Some? && info.fontSize.value != 0 { f := f.(size := info.fontSize); }
    if Truthy(info.fontColor) {
      var rgb := FromHex(info.fontColor.value);
      if rgb.None? {
        return Failure(BadColor(info.fontColor.value));
      }
      f := f.(color := rgb);
    }
    if Truthy(info.highlight) {
      var h := HighlightFromName(info.highlight.value);
      if h.None? {
        return Failure(UnknownHighlight(info.highlight.value));
      }
      f := f.(highlight := h);
    }
    return Success(f);
  }

  method ApplyCaps(info: RunData, font: Font) returns (r: Font)
    ensures r == WithCaps(info, font)
  {
    r := font;
    if info.allCaps == Some(true) { r := r.(allCaps := Some(true)); }
    if info.smallCaps == Some(true) { r := r.(smallCaps := Some(true)); }
    if info.hidden == Some(true) { r := r.(hidden := Some(true)); }
  }

  /** The attribute assignments on the font of a freshly added run. */
  method ApplyRunFormatting(info: RunData) returns (r: Result<Font, Error>)
    ensures r == FontOf(info)
  {
    var font := ApplyEffects(info, DefaultFont);
    var face := ApplyFace(info, font);
    if face.Failure? {
      return Failure(face.error);
    }
    font := ApplyCaps(info, face.value);
    return Success(font);
  }

  /** `doc.add_paragraph()` followed by the style, alignment and format
      assignments of one entry. */
  method AddParagraphFor(doc: Document, info: ParagraphData) returns (err: Option<Error>)
    modifies doc
    ensures err == HeadError(info, doc.styles)
    ensures err.None? ==> doc.body == old(doc.body) + [Shell(info)]
  {
    doc.AddParagraph();
    if info.style.Some? {
      var found := doc.SetStyle(info.style.value);
      if !found {
        return Some(StyleNotFound(info.style.value));
      }
    }
    if info.alignment.Some? {
      var a := AlignmentFromName(info.alignment.value);
      if a.None? {
        return Some(UnknownAlignment(info.alignment.value));
      }
      doc.SetAlignment(a.value);
    }
    var fmt := doc.Last().format;
    if info.leftIndent.Some? { fmt := fmt.(leftIndent := info.leftIndent); }
    if info.rightIndent.Some? { fmt := fmt.(rightIndent := info.rightIndent); }
    if info.firstLineIndent.Some? { fmt := fmt.(firstLineIndent := info.firstLineIndent); }
    if info.lineSpacing.Some? { fmt := fmt.(lineSpacing := info.lineSpacing); }
    doc.SetFormat(fmt);
    return None;
  }

  /** `para.add_run(run_info["text"])` followed by the font assignments of one
      entry, on the paragraph added last. */
  method AddRunFor(doc: Document, info: RunData) returns (err: Option<Error>)
    requires doc.body != []
    modifies doc
    ensures err.None? <==> RunOf(info).Success?
    ensures err.Some? ==> RunOf(info) == Failure(err.value)
    ensures err.None? ==>
              doc.body == old(doc.body)[|old(doc.body)| - 1 := old(doc.Last()).(runs := old(doc.Last()).runs + [RunOf(info).value])]
  {
    if info.text.None? {
      return Some(MissingKey("text"));
    }
    ghost var last := doc.Last();
    doc.AddRun(info.text.value);
    var font := ApplyRunFormatting(info);
    if font.Failure? {
      return Some(font.error);
    }
    doc.SetFont(font.value);
    assert (last.runs + [Run(info.text.value, DefaultFont)])[|last.runs| := Run(info.text.value, font.value)]
        == last.runs + [Run(info.text.value, font.value)];
    assert RunOf(info) == Success(Run(info.text.value, font.value));
    return None;
  }

  /** `for run_info in para_info["runs"]`: the runs of one entry, appended in
      order to the paragraph added last; the first failing run stops the loop. */
  method AddRunsFor(doc: Document, runs: seq<RunData>) returns (err: Option<Error>)
    requires doc.body != []
    modifies doc
    ensures err.None? <==> MapAll(RunOf, runs).Success?
    ensures err.Some? ==> MapAll(RunOf, runs) == Failure(err.value)
    ensures err.None? ==>
              doc.body == old(doc.body)[|old(doc.body)| - 1 := old(doc.Last()).(runs := old(doc.Last()).runs + MapAll(RunOf, runs).value)]
  {
    ghost var before := doc.body;
    ghost var last := doc.Last();
    assert runs[..0] == [] && last.runs + [] == last.runs;
    assert before[|before| - 1 := last] == before;
    for j := 0 to |runs|
      invariant MapAll(RunOf, runs[..j]).Success?
      invariant doc.body == before[|before| - 1 := last.(runs := last.runs + MapAll(RunOf, runs[..j]).value)]
    {
      ghost var done := MapAll(RunOf, runs[..j]).value;
      err := AddRunFor(doc, runs[j]);
      if err.Some? {
        MapAllStop(RunOf, runs, j);
        return err;
      }
      MapAllSnoc(RunOf, runs, j);
      assert last.runs + done + [RunOf(runs[j]).value] == last.runs + (done + [RunOf(runs[j]).value]);
    }
    assert runs[..|runs|] == runs;
    return None;
  }

  /** One pass of `for para_info in data`: a paragraph and its runs, appended
      to the document, or the first error met doing so. */
  method AddEntry(doc: Document, info: ParagraphData) returns (err: Option<Error>)
    modifies doc
    ensures err.None? <==> ParagraphOf(info, doc.styles).Success?
    ensures err.Some? ==> ParagraphOf(info, doc.styles) == Failure(err.value)
    ensures err.None? ==> doc.body == old(doc.body) + [ParagraphOf(info, doc.styles).value]
  {
    ghost var before := doc.body;
    err := AddParagraphFor(doc, info);
    if err.Some? {
      return;
    }
    if info.runs.None? {
      return Some(MissingKey("runs"));
    }
    ghost var mid := doc.body;
    err := AddRunsFor(doc, info.runs.value);
    if err.Some? {
      return;
    }
    ghost var written := Shell(info).(runs := MapAll(RunOf, info.runs.value).value);
    assert ParagraphOf(info, doc.styles) == Success(written);
    assert Shell(info).runs + MapAll(RunOf, info.runs.value).value == MapAll(RunOf, info.runs.value).value;
    assert mid[|mid| - 1 := written] == before + [written];
  }

  /** Writes `data` to `outPath`. Nothing on the disk changes unless every
      guard passes and every entry is applied; then exactly `outPath` holds the
      new document. */
  method WriteDocx(allow: AllowList, disk: Disk, data: DocData, outPath: Path, overwrite: bool,
                   templateStyles: set<string>) returns (r: Result<string, Error>)
    modifies disk
    ensures WriteSpec(allow, old(disk.files), data, outPath, overwrite, templateStyles).Failure? ==>
              r == Failure(WriteSpec(allow, old(disk.files), data, outPath, overwrite, templateStyles).error) &&
              disk.files == old(disk.files)
    ensures WriteSpec(allow, old(disk.files), data, outPath, overwrite, templateStyles).Success? ==>
              r == Success("Saved file") &&
              disk.files == old(disk.files)[outPath := DocumentFile(WriteSpec(allow, old(disk.files), data, outPath, overwrite, templateStyles).value)]
  {
    if !PathIsAllowed(allow, outPath) {
      return Failure(NotAuthorized);
    }
    if !overwrite && outPath in disk.files {
      return Failure(AlreadyExists);
    }
    var doc := new Document(templateStyles);
    ghost var write := ParagraphWriter(templateStyles);
    for i := 0 to |data|
      invariant doc.styles == templateStyles
      invariant MapAll(write, data[..i]) == Success(doc.body)
      invariant disk.files == old(disk.files)
    {
      var err := AddEntry(doc, data[i]);
      if err.Some? {
        MapAllStop(write, data, i);
        return Failure(err.value);
      }
      MapAllSnoc(write, data, i);
    }
    assert data[..|data|] == data;
    disk.Save(outPath, doc.body);
    return Success("Saved file");
  }

  // ------------------------------------------------------------ properties

  /** A written paragraph has one run per run entry, each with that entry's text. */
  lemma ParagraphShape(pd: ParagraphData, styles: set<string>)
    requires ParagraphOf(pd, styles).Success?
    ensures pd.runs.Some? && |ParagraphOf(pd, styles).value.runs| == |pd.runs.value|
    ensures forall j :: 0 <= j < |pd.runs.value| ==>
              pd.runs.value[j].text == Some(ParagraphOf(pd, styles).value.runs[j].text)
  {
    var runs := MapAll(RunOf, pd.runs.value).value;
    forall j | 0 <= j < |pd.runs.value|
      ensures pd.runs.value[j].text == Some(runs[j].text)
    {
      assert RunOf(pd.runs.value[j]) == Success(runs[j]);
    }
  }

  /** A successful build has one paragraph per entry and, in each, one run per
      run entry carrying that entry's text, all in order. */
  lemma {:induction false} WrittenShape(data: DocData, styles: set<string>)
    requires DocumentOf(data, styles).Success?
    ensures |DocumentOf(data, styles).value| == |data|
    ensures forall i :: 0 <= i < |data| ==>
              data[i].runs.Some? && |DocumentOf(data, styles).value[i].runs| == |data[i].runs.value|
    ensures forall i, j :: 0 <= i < |data| && 0 <= j < |data[i].runs.value| ==>
              data[i].runs.value[j].text == Some(DocumentOf(data, styles).value[i].runs[j].text)
  {
    var body := DocumentOf(data, styles).value;
    forall i | 0 <= i < |data|
      ensures ParagraphOf(data[i], styles) == Success(body[i])
    {
      assert ParagraphWriter(styles)(data[i]) == Success(body[i]);
    }
    forall i | 0 <= i < |data|
      ensures data[i].runs.Some? && |body[i].runs| == |data[i].runs.value|
      ensures forall j :: 0 <= j < |data[i].runs.value| ==> data[i].runs.value[j].text == Some(body[i].runs[j].text)
    {
      ParagraphShape(data[i], styles);
    }
  }

  /** One entry that cannot be applied makes the whole build fail, so nothing
      is saved. */
  lemma {:induction false} BadEntryFailsWrite(data: DocData, styles: set<string>, i: nat)
    requires i < |data| && ParagraphOf(data[i], styles).Failure?
    ensures DocumentOf(data, styles).Failure?
  {
    assert ParagraphWriter(styles)(data[i]).Failure?;
  }

  /** An alignment name outside the four is a lookup failure of its paragraph. */
  lemma UnknownAlignmentFails(pd: ParagraphData, styles: set<string>)
    requires pd.alignment.Some? && pd.alignment.value !in {"LEFT", "CENTER", "RIGHT", "JUSTIFY"}
    requires pd.style.None? || pd.style.value in styles
    ensures ParagraphOf(pd, styles) == Failure(UnknownAlignment(pd.alignment.value))
  {
  }

  /** A non-empty highlight name outside the nineteen is a lookup failure of
      its run, unless the colour of that run already failed. */
  lemma UnknownHighlightFails(rd: RunData)
    requires rd.text.Some? && Truthy(rd.highlight) && HighlightFromName(rd.highlight.value).None?
    requires !Truthy(rd.fontColor) || FromHex(rd.fontColor.value).Some?
    ensures RunOf(rd) == Failure(UnknownHighlight(rd.highlight.value))
  {
  }

  /** A run with an unknown highlight name, reached after every earlier entry
      and every earlier run of its entry was applied, is the error of the whole
      build: the exception leaves both loops. */
  lemma {:induction false} UnknownHighlightFailsWrite(data: DocData, styles: set<string>, i: nat, j: nat)
    requires i < |data| && forall k :: 0 <= k < i ==> ParagraphOf(data[k], styles).Success?
    requires HeadError(data[i], styles).None? && data[i].runs.Some? && j < |data[i].runs.value|
    requires forall k :: 0 <= k < j ==> RunOf(data[i].runs.value[k]).Success?
    requires data[i].runs.value[j].text.Some?
    requires Truthy(data[i].runs.value[j].highlight) && HighlightFromName(data[i].runs.value[j].highlight.value).None?
    requires !Truthy(data[i].runs.value[j].fontColor) || IsHexText(data[i].runs.value[j].fontColor.value)
    ensures DocumentOf(data, styles) == Failure(UnknownHighlight(data[i].runs.value[j].highlight.value))
  {
    var runs := data[i].runs.value;
    var e := UnknownHighlight(runs[j].highlight.value);
    assert RunOf(runs[j]) == Failure(e);
    forall k | 0 <= k < j ensures RunOf(runs[..j][k]).Success? {
      assert runs[..j][k] == runs[k];
    }
    MapAllStop(RunOf, runs, j);
    assert ParagraphOf(data[i], styles) == Failure(e);
    var write := ParagraphWriter(styles);
    forall k | 0 <= k < i ensures write(data[..i][k]).Success? {
      assert data[..i][k] == data[k];
    }
    assert write(data[i]) == Failure(e);
    MapAllStop(write, data, i);
  }

  /** The guards come before any building: when one of them rejects the call,
      the outcome is that rejection whatever the data, even data that could
      not be applied. */
  lemma GuardsComeFirst(allow: AllowList, files: map<Path, FileContent>, data: DocData, other: DocData,
                        outPath: Path, overwrite: bool, styles: set<string>)
    requires !PathIsAllowed(allow, outPath) || (!overwrite && outPath in files)
    ensures WriteSpec(allow, files, data, outPath, overwrite, styles) ==
            WriteSpec(allow, files, other, outPath, overwrite, styles)
    ensures !PathIsAllowed(allow, outPath) ==> WriteSpec(allow, files, data, outPath, overwrite, styles) == Failure(NotAuthorized)
    ensures PathIsAllowed(allow, outPath) ==> WriteSpec(allow, files, data, outPath, overwrite, styles) == Failure(AlreadyExists)
  {
  }
}
